=== FILE: README.md ===
# IMPROVE VTE score — a verified model of the scoring engine

This project models the scoring engine of a one-page calculator for the IMPROVE
risk score for venous thromboembolism (VTE). The engine has four parts:

- a weight table of seven clinical findings (`FINDING_SCORES`);
- a findings record that starts with every finding absent, plus a stored score;
- the change handler (`handleChange`), which flips one finding and then stores the
  sum of the weights of the present findings;
- two classifiers of the score: `getVTERisk`, an ordered chain of range checks that
  gives the 3-month risk label, and the `score < 2` test that picks the
  recommendation text and the colour of the recommendation box.

The repository holds this logic twice, once typed (`src/App.tsx`) and once untyped
(`src/App.jsx`). The typed version is modelled directly. The untyped version is
modelled separately, because its findings object is keyed by arbitrary strings, and
it is proved to agree with the typed one on catalog keys. The model is organised as
follows:

- `Catalog` (catalog.dfy) holds the `Finding` enum, the weights, the string keys and
  the catalog order.
- `Scoring` (scoring.dfy) holds the findings record, `Toggle` and `Score`.
- `Classification` (classification.dfy) holds `VteRisk`, the risk table as data, and
  `Recommendation`.
- `App` (app.dfy) holds the typed component state, the change handler (as a pure
  `Step` and as the loop `HandleChange`), and replays of change events from the
  initial state.
- `UntypedApp` (untyped_app.dfy) models the untyped version. An object is a sequence
  of (key, value) properties in insertion order. `{ ...prev, [name]: x }` overwrites
  an existing key in place and appends a new one (for the keys the page sends; see
  "Left out" for array-index keys). `!prev[name]` is `true` when the
  property is undefined. `FINDING_SCORES[key] || 0` is 0 for a key the table does not
  list.

The typed findings record is stored positionally. It is a `seq<bool>` of length 7,
and finding `f` sits at the position of `f` in `AllFindings`. That is the order in
which the `initialFindings` literal creates the properties (`src/App.tsx:83-91`);
spreads keep it, so it is also the order in which `Object.entries` visits them.

`getVTERisk` and the recommendation test are written identically in
`src/App.jsx:84-93` and `src/App.jsx:165-177`. The rows below cite the typed file
for them.

Two points about the code that the model keeps:

- The change handler raises no error for an unknown id. In the typed version an
  unknown id cannot be written (the handler takes `keyof Findings`), and the model's
  `Finding` enum likewise cannot express one. The untyped version accepts any string:
  it adds the key with value `true`, and that key scores 0 (`UntypedApp.UnknownKeyStep`).
- The score is kept in component state (`setScore`) and recomputed inside the same
  update as the toggle. The model stores it too (`AppState.score`), and `App.Step` and
  `App.Replay` prove that it never drifts from the findings record.

## Model

| member | source | states |
|---|---|---|
| Catalog.Weight | src/App.tsx:63-71 | every finding's weight is an integer from 1 to 3 (3 for previous VTE; 2 for thrombophilia, paralysis and cancer; 1 for the rest) |
| Catalog.CatalogWeightTotal | src/App.tsx:63-71 | the seven weights sum to 12, the largest reachable score |
| Catalog.CatalogComplete | src/App.tsx:53-61 | the catalog lists every finding, and lists none twice |
| Catalog.ListedOnce | src/App.tsx:83-91 | each finding occurs exactly once among the keys of the initial record |
| Catalog.Key | src/App.jsx:34-42 | the body is the definition: the property name of each finding, as spelled in `FINDING_SCORES` and in `initialFindings` (`src/App.tsx:83-91`) |
| Catalog.FindingOf | src/App.jsx:34-42 | a string key maps back to the finding whose key it is; a key that names no finding maps to nothing |
| Catalog.KeyRoundTrip | src/App.jsx:34-42 | distinct findings have distinct keys, and looking up a finding's key gives that finding back |
| Scoring.With | src/App.tsx:99 | the copied record holds the new value for the named finding and the old value for every other finding |
| Scoring.Entries | src/App.tsx:101 | the record's entries list every finding once, in field order, paired with its value |
| Scoring.Toggle | src/App.tsx:99 | a toggle negates the named finding and leaves every other finding unchanged |
| Scoring.ToggleInvolution | src/App.tsx:99 | toggling the same finding twice gives back the original record |
| Scoring.ToggleCommutes | src/App.tsx:99 | toggles of two findings give the same record in either order |
| Scoring.SumPresent | src/App.tsx:100-103 | the weights of the present findings of a list never sum to more than all the list's weights |
| Scoring.Score | src/App.tsx:100-103 | the score of any record lies between 0 and 12 |
| Scoring.ScoreExtremes | src/App.tsx:100-103 | the score is 0 exactly when no finding is present, and 12 exactly when all are |
| Scoring.ToggleScoreDelta | src/App.tsx:99-103 | a toggle changes the score by exactly the toggled finding's weight: up when it becomes present, down when it becomes absent |
| Scoring.ScoreMonotone | src/App.tsx:100-103 | marking more findings present never lowers the score |
| Scoring.InitialScore | src/App.tsx:83-91 | the initial record has every finding absent and scores 0 |
| App.InitialState | src/App.tsx:94-95 | the component starts with every finding absent and a stored score of 0, which agrees with the record |
| App.Step | src/App.tsx:97-107 | a change event flips only the named finding and stores a score equal to the sum of the present weights, within 0..12; from a consistent state the stored score moves by exactly the finding's weight |
| App.HandleChange | src/App.tsx:97-107 | walking the copied record's entries and adding the weight of each present one yields the toggled record and its score |
| App.StepInvolution | src/App.tsx:99-104 | from a consistent state, two change events for the same finding restore both the record and the stored score |
| App.Replay | src/App.tsx:94-107 | after any sequence of change events from the initial state, the stored score equals the record's score and lies in 0..12 |
| App.ReplayParity | src/App.tsx:99 | after any sequence of change events, a finding is present exactly when it was toggled an odd number of times |
| App.ReplayOrderIrrelevant | src/App.tsx:99-104 | two event sequences that toggle each finding equally often reach the same state |
| App.ReplayEachOnce | src/App.tsx:100-103 | toggling every finding once, in any order, marks all present and reaches the score 12 |
| App.Render | src/App.tsx:181-202 | the page shows the stored score, a risk label that is "-" exactly for negative scores, and the "not warranted" text and green styling exactly for scores below 2 |
| App.ReachableDisplay | src/App.tsx:181-202 | in every reachable state the risk label is a table entry, never "-", and the "not warranted" advice shows exactly with "0.4%" or "0.6%" |
| App.ScenarioPreviousVteAndAge | src/App.tsx:97-118 | previous VTE plus age over 60 gives score 4, risk "2.9%", the prophylaxis text and red styling |
| App.ScenarioIcuStayOnly | src/App.tsx:97-118 | an ICU/CCU stay alone gives score 1, risk "0.6%", the "not warranted" text and green styling |
| App.ScenarioAllFindings | src/App.tsx:97-118 | all seven findings give score 12, risk ">7.2%", the prophylaxis text and red styling |
| Classification.VteRisk | src/App.tsx:109-118 | the label is "-" exactly for negative scores; every other score gets one of the seven table labels |
| Classification.RiskTableWellFormed | src/App.tsx:110-116 | the table's rows start at 0, are contiguous, end without an upper bound, and carry the labels in increasing order of risk |
| Classification.RiskMatchesTable | src/App.tsx:109-118 | for every integer, the chain of range checks gives the label of the first table row containing the score: 0→0.4%, 1→0.6%, 2→1.0%, 3→1.7%, 4→2.9%, 5..10→7.2%, above 10→>7.2%, else "-" |
| Classification.RiskMonotone | src/App.tsx:109-118 | a higher score never gets a lower risk label |
| Classification.Recommendation | src/App.tsx:190-202 | a score below 2 gets the "not warranted" text in green; every other score gets the prophylaxis text in red; text and colour always agree |
| Classification.RecommendationMonotone | src/App.tsx:200-202 | once a score calls for prophylaxis, every higher score does too |
| Classification.RecommendationMatchesRisk | src/App.tsx:190-202 | the "not warranted" text appears exactly when the risk label is "0.4%", "0.6%" or the fallback "-" |
| UntypedApp.ScoreTableMatchesCatalog | src/App.jsx:34-42 | the untyped weight table lists the catalog keys in order with the catalog weights |
| UntypedApp.Lookup | src/App.jsx:74-77 | the body is the definition: reading a property (`prev[name]`, `FINDING_SCORES[key]`) gives the value of the first pair with that key, or undefined when there is none |
| UntypedApp.TableLookupByKey | src/App.jsx:34-42 | looking a key up in the weight table gives the weight of the finding it names, and nothing for any other string |
| UntypedApp.WeightOrZero | src/App.jsx:77 | a catalog key contributes its finding's weight; any other key contributes 0 |
| UntypedApp.Assign | src/App.jsx:74 | the spread-and-set copy holds the new value under the key and every other key's old value; an existing key keeps its position, a new key is appended |
| UntypedApp.AssignKeepsDistinct | src/App.jsx:74 | the spread-and-set copy never duplicates a key |
| UntypedApp.Negated | src/App.jsx:74 | the body is the definition; `!prev[name]` is true exactly when the property is not the value true: undefined or false |
| UntypedApp.ScoreEntries | src/App.jsx:75-79 | the body is the definition: each present property adds its table weight, or 0 for a key the table does not list; the contract states that the sum never exceeds 3 per property, the largest table weight |
| UntypedApp.MarkAbsent | src/App.jsx:44-47 | the body is the definition (one `acc[key] = false` per key, in order); after the `reduce`, every listed key reads false and every other key keeps its value in the starting object |
| UntypedApp.TableKeys | src/App.jsx:44 | `Object.keys(FINDING_SCORES)` lists the table's keys, one per row, in table order |
| UntypedApp.InitialEntries | src/App.jsx:44-47 | the body is the definition: `initialFindings` is the `reduce` over the table's keys starting from the empty object |
| UntypedApp.MarkAbsentAppends | src/App.jsx:44-47 | reducing over fresh, distinct keys appends them in order, each set to false |
| UntypedApp.InitialEntriesShape | src/App.jsx:44-47 | the initial findings object has exactly the weight table's keys, in order, all false |
| UntypedApp.Initial | src/App.jsx:69-70 | the body is the definition: the component starts with `initialFindings` and a stored score of 0 |
| UntypedApp.InitialCorresponds | src/App.jsx:69-70 | the untyped initial state mirrors the typed initial state, with stored score 0 |
| UntypedApp.Step | src/App.jsx:72-82 | a change event sets the named key to the negation of its old value (true when it was undefined), leaves every other key alone, and stores the recomputed score |
| UntypedApp.ScoreCorresponds | src/App.jsx:75-79 | summing an object that mirrors a typed record gives the typed score |
| UntypedApp.AssignMirror | src/App.jsx:74 | on an object that mirrors a typed record, the spread-and-set of a catalog key gives the mirror of the typed copy with that finding set |
| UntypedApp.StepCorresponds | src/App.jsx:72-82 | for a catalog key, the untyped handler does to the object what the typed handler does to the record, and stores the same score |
| UntypedApp.Replay | src/App.jsx:68-82 | the body is the definition: the state after handling the change events, in order, from the initial state |
| UntypedApp.ReplayCorresponds | src/App.jsx:68-82 | for any sequence of catalog keys, the untyped state reached is exactly the mirror of the typed state reached: the catalog keys in order with the typed values, and the same stored score |
| UntypedApp.ReplayBounded | src/App.jsx:68-82 | for any sequence of catalog keys, the untyped stored score lies in 0..12 |
| UntypedApp.StepInvolution | src/App.jsx:74-79 | from a state that mirrors a typed record and whose stored score agrees with the object, two change events for a catalog key restore both the object and the stored score |
| UntypedApp.UnknownKeyScore | src/App.jsx:77 | a present property whose key the table does not list adds nothing to the score |
| UntypedApp.UnknownKeyOnce | src/App.jsx:74-79 | writing a key the table does not list into an object that lacks it appends the property and leaves the score unchanged |
| UntypedApp.UnknownKeyStep | src/App.jsx:72-82 | a change event for an unknown key appends it as true and keeps the score; a second one sets it to false but leaves it in the object, so the score returns to its old value but the object does not |

## Left out

- Rendering is not modelled: the JSX, the `styled-components` definitions, the
  `react-switch` control, the layout, the display labels and the note text. Only
  the two recommendation texts are modelled, as constants.
- The colour literals are not modelled. The two box stylings are the values `Green`
  and `Red` of `Tone`.
- React's `useState` scheduling is not modelled. The updater passed to
  `setFindings` and the `setScore` call inside it are treated as one atomic step:
  flip, then recompute. Batching, asynchronous scheduling and the double invocation
  of updaters in development mode are out of scope.
- JavaScript numbers are modelled as unbounded integers. Scores never exceed 12, so
  neither overflow nor floating point arises.
- Inherited prototype properties of plain objects are not modelled. In the untyped
  version a key such as `"constructor"` reads an inherited value, both in
  `prev[name]` and in `FINDING_SCORES[key]`. The model treats every key that is not
  an own property as undefined. No control in the page ever sends such a key.
- The external link to the original published calculator is not modelled. It is
  static text with no behaviour.
- UntypedApp.Assign: a new key is always appended. A JavaScript object lists
  array-index keys ("0", "42") in ascending numeric order, before every key that is
  not an array index.
  The model does not order them so, because no control in the page sends such a key
  and the score does not depend on property order.
- UntypedApp.UnknownKeyStep: states that an unknown key ends up last. JavaScript
  would list an array-index key before every key that is not an array index. The
  reason is the one given for `UntypedApp.Assign`.
- UntypedApp.ScoreEntries: its contract states only the bound. The exact sum is its
  definition, which `UntypedApp.ScoreCorresponds` ties to the typed score and
  `UntypedApp.UnknownKeyScore` ties to keys the table does not list.

=== FILE: app.dfy ===
/**
  The state of the typed application: the findings record and the stored score,
  and the change handler that flips one finding and recomputes the score in the
  same atomic step.
 */
module App {
  import opened Catalog
  import opened Scoring
  import opened Classification

  /** The two pieces of component state: the findings record and the stored score. */
  datatype AppState = AppState(findings: Findings, score: int)

  /** The stored score has not drifted from the findings record. */
  predicate Consistent(a: AppState)
  {
    a.score == Score(a.findings)
  }

  /** The state on first render: every finding absent, stored score 0. */
  const Initial: AppState := AppState(InitialFindings, 0)

  /** The initial state is all-absent and its stored score agrees with the record. */
  lemma InitialState()
    ensures forall f :: !Present(Initial.findings, f)
    ensures Consistent(Initial)
  {
    InitialScore();
  }

  /** One change event: flip the entry for `name`, then store the recomputed score.
      From a consistent state the stored score moves by exactly the weight of `name`. */
  function Step(a: AppState, name: Finding): (r: AppState)
    ensures Present(r.findings, name) == !Present(a.findings, name)
    ensures forall g :: g != name ==> Present(r.findings, g) == Present(a.findings, g)
    ensures Consistent(r)
    ensures 0 <= r.score <= MaxScore
    ensures Consistent(a) && !Present(a.findings, name) ==> r.score == a.score + Weight(name)
    ensures Consistent(a) && Present(a.findings, name) ==> r.score == a.score - Weight(name)
  {
    var updated := Toggle(a.findings, name);
    ToggleScoreDelta(a.findings, name);
    AppState(updated, Score(updated))
  }

  /** The change handler as the component runs it: copy the record with one entry
      flipped, then walk its entries in order, adding the weight of each present one. */
  method HandleChange(a: AppState, name: Finding) returns (r: AppState)
    ensures r.findings == Toggle(a.findings, name)
    ensures r.score == Score(r.findings)
  {
    var updated := Toggle(a.findings, name);
    var entries := Entries(updated);
    var newScore := 0;
    for i := 0 to |entries|
      invariant newScore == SumPresent(AllFindings[..i], updated)
    {
      var (key, value) := entries[i];
      assert AllFindings[..i + 1][..i] == AllFindings[..i];
      if value {
        // every weight is positive, so the `|| 0` fallback never applies to a typed key
        newScore := newScore + Weight(key);
      }
    }
    assert AllFindings[..|entries|] == AllFindings;
    r := AppState(updated, newScore);
  }

  /** From a consistent state, handling the same finding twice restores both the
      findings record and the stored score. */
  lemma StepInvolution(a: AppState, name: Finding)
    requires Consistent(a)
    ensures Step(Step(a, name), name) == a
  {
  }

  /** The state after handling the change events `names`, in order, from the initial state. */
  function Replay(names: seq<Finding>): (r: AppState)
    ensures Consistent(r)
    ensures 0 <= r.score <= MaxScore
  {
    if |names| == 0 then
      InitialState();
      Initial
    else
      Step(Replay(names[..|names| - 1]), names[|names| - 1])
  }

  /** After any sequence of change events, a finding is present exactly when it was
      toggled an odd number of times. */
  lemma {:induction false} ReplayParity(names: seq<Finding>, f: Finding)
    ensures Present(Replay(names).findings, f) <==> multiset(names)[f] % 2 == 1
  {
    if |names| == 0 {
      InitialState();
    } else {
      var init, last := names[..|names| - 1], names[|names| - 1];
      ReplayParity(init, f);
      CountLast(names, f);
      var before := Replay(init);
      var after := Step(before, last);
      assert Replay(names) == after;
    }
  }

  /** Counting `f` in a non-empty sequence: its count in all but the last element,
      plus one if the last element is `f`. */
  lemma CountLast(names: seq<Finding>, f: Finding)
    requires |names| > 0
    ensures multiset(names)[f] ==
            multiset(names[..|names| - 1])[f] + (if names[|names| - 1] == f then 1 else 0)
  {
    assert names == names[..|names| - 1] + [names[|names| - 1]];
  }

  /** The order of change events does not matter: two event sequences that toggle each
      finding equally often lead to the same state. */
  lemma ReplayOrderIrrelevant(xs: seq<Finding>, ys: seq<Finding>)
    requires multiset(xs) == multiset(ys)
    ensures Replay(xs) == Replay(ys)
  {
    forall f ensures Present(Replay(xs).findings, f) == Present(Replay(ys).findings, f) {
      ReplayParity(xs, f);
      ReplayParity(ys, f);
    }
    Extensionality(Replay(xs).findings, Replay(ys).findings);
  }

  /** What the component displays for a state: the stored score, its risk label and
      the recommendation box. */
  datatype Display = Display(score: int, risk: string, advice: Advice)

  function Render(a: AppState): (d: Display)
    ensures d.score == a.score
    ensures d.risk == NoRisk <==> a.score < 0
    ensures d.advice.text == LowRiskAdvice <==> a.score < 2
    ensures d.advice.tone == Green <==> a.score < 2
  {
    Display(a.score, VteRisk(a.score), Recommendation(a.score))
  }

  /** In every reachable state the risk label is a real table entry, never the "-"
      fallback, and the "not warranted" advice appears exactly with the two lowest labels. */
  lemma ReachableDisplay(names: seq<Finding>)
    ensures Render(Replay(names)).risk != NoRisk
    ensures Render(Replay(names)).risk in RiskLabels
    ensures Render(Replay(names)).advice.text == LowRiskAdvice <==>
            Render(Replay(names)).risk in {"0.4%", "0.6%"}
  {
    RecommendationMatchesRisk(Replay(names).score);
  }

  /** Worked example: previous VTE (3 points) with age over 60 (1 point) scores 4,
      a 2.9% risk, and calls for prophylaxis. */
  lemma ScenarioPreviousVteAndAge()
    ensures Render(Replay([PreviousVTE, AgeOver60])) == Display(4, "2.9%", Advice(HighRiskAdvice, Red))
  {
  }

  /** Worked example: an ICU/CCU stay alone scores 1, a 0.6% risk, and prophylaxis is
      not warranted. */
  lemma ScenarioIcuStayOnly()
    ensures Render(Replay([IcuCcuStay])) == Display(1, "0.6%", Advice(LowRiskAdvice, Green))
  {
  }

  /** Handling every finding exactly once, in any order, reaches the maximum score. */
  lemma ReplayEachOnce(names: seq<Finding>)
    requires forall f :: multiset(names)[f] == 1
    ensures forall f :: Present(Replay(names).findings, f)
    ensures Replay(names).score == MaxScore
  {
    var all := Replay(names);
    forall f ensures Present(all.findings, f) {
      ReplayParity(names, f);
    }
    ScoreExtremes(all.findings);
  }

  /** Worked example: with every finding present the score is the maximum 12, the risk
      is above 7.2%, and prophylaxis is called for. */
  lemma ScenarioAllFindings()
    ensures Render(Replay(AllFindings)) == Display(12, ">7.2%", Advice(HighRiskAdvice, Red))
  {
    forall f ensures multiset(AllFindings)[f] == 1 {
      ListedOnce(f);
    }
    ReplayEachOnce(AllFindings);
  }
}

=== FILE: catalog.dfy ===
/**
  The fixed catalog of the IMPROVE VTE score: seven clinical findings, each
  with a stable string identifier and an integer point weight. The order of
  `AllFindings` is the declaration order of the weight table, which is also the
  order in which the findings record lists its keys.
 */
module Catalog {

  datatype Option<T> = None | Some(value: T)

  /** One clinical risk factor. Using an enum makes an unknown id unrepresentable. */
  datatype Finding =
    | PreviousVTE
    | KnownThrombophilia
    | CurrentLowerLimbParalysis
    | CurrentCancer
    | Immobilized7Days
    | IcuCcuStay
    | AgeOver60

  /** All findings, in the order of the weight table. */
  const AllFindings: seq<Finding> := [
    PreviousVTE, KnownThrombophilia, CurrentLowerLimbParalysis, CurrentCancer,
    Immobilized7Days, IcuCcuStay, AgeOver60
  ]

  /** The largest score any findings record can reach: the sum of all weights. */
  const MaxScore: nat := 12

  /** The point weight of a finding. */
  function Weight(f: Finding): (w: nat)
    ensures 1 <= w <= 3
  {
    match f
    case PreviousVTE => 3
    case KnownThrombophilia => 2
    case CurrentLowerLimbParalysis => 2
    case CurrentCancer => 2
    case Immobilized7Days => 1
    case IcuCcuStay => 1
    case AgeOver60 => 1
  }

  /** The string key under which a finding is stored in the untyped records. */
  function Key(f: Finding): string
  {
    match f
    case PreviousVTE => "previousVTE"
    case KnownThrombophilia => "knownThrombophilia"
    case CurrentLowerLimbParalysis => "currentLowerLimbParalysis"
    case CurrentCancer => "currentCancer"
    case Immobilized7Days => "immobilized7Days"
    case IcuCcuStay => "icuCcuStay"
    case AgeOver60 => "ageOver60"
  }

  /** The finding a string key names, if any: the inverse of `Key`. */
  function FindingOf(k: string): (r: Option<Finding>)
    ensures r.Some? ==> Key(r.value) == k
    ensures r.None? ==> forall f :: Key(f) != k
  {
    if k == "previousVTE" then Some(PreviousVTE)
    else if k == "knownThrombophilia" then Some(KnownThrombophilia)
    else if k == "currentLowerLimbParalysis" then Some(CurrentLowerLimbParalysis)
    else if k == "currentCancer" then Some(CurrentCancer)
    else if k == "immobilized7Days" then Some(Immobilized7Days)
    else if k == "icuCcuStay" then Some(IcuCcuStay)
    else if k == "ageOver60" then Some(AgeOver60)
    else None
  }

  /** The position of a finding in `AllFindings`. */
  function Index(f: Finding): (i: nat)
    ensures i < |AllFindings| && AllFindings[i] == f
  {
    match f
    case PreviousVTE => 0
    case KnownThrombophilia => 1
    case CurrentLowerLimbParalysis => 2
    case CurrentCancer => 3
    case Immobilized7Days => 4
    case IcuCcuStay => 5
    case AgeOver60 => 6
  }

  /** Distinct findings sit at distinct positions. */
  lemma IndexInjective(f: Finding)
    ensures forall g :: Index(g) == Index(f) ==> g == f
  {
  }

  /** Every position of `AllFindings` is the index of the finding stored there. */
  lemma IndexOfListed()
    ensures forall i :: 0 <= i < |AllFindings| ==> Index(AllFindings[i]) == i
  {
  }

  /** Sum of the weights of a sequence of findings. */
  function SumWeights(fs: seq<Finding>): nat
  {
    if |fs| == 0 then 0 else SumWeights(fs[..|fs| - 1]) + Weight(fs[|fs| - 1])
  }

  /** The catalog lists every finding exactly once. */
  lemma CatalogComplete(f: Finding)
    ensures f in AllFindings
    ensures forall i, j :: 0 <= i < j < |AllFindings| ==> AllFindings[i] != AllFindings[j]
  {
  }

  /** Each finding occurs exactly once in `AllFindings`. */
  lemma ListedOnce(f: Finding)
    ensures multiset(AllFindings)[f] == 1
  {
    var m := multiset(AllFindings);
    assert m == multiset{PreviousVTE, KnownThrombophilia, CurrentLowerLimbParalysis, CurrentCancer,
                         Immobilized7Days, IcuCcuStay, AgeOver60};
    match f
    case PreviousVTE => assert m[PreviousVTE] == 1;
    case KnownThrombophilia => assert m[KnownThrombophilia] == 1;
    case CurrentLowerLimbParalysis => assert m[CurrentLowerLimbParalysis] == 1;
    case CurrentCancer => assert m[CurrentCancer] == 1;
    case Immobilized7Days => assert m[Immobilized7Days] == 1;
    case IcuCcuStay => assert m[IcuCcuStay] == 1;
    case AgeOver60 => assert m[AgeOver60] == 1;
  }

  /** The weights of the catalog add up to `MaxScore` (3 + 2 + 2 + 2 + 1 + 1 + 1). */
  lemma CatalogWeightTotal()
    ensures SumWeights(AllFindings) == MaxScore
  {
    assert SumWeights(AllFindings[..0]) == 0;
    assert SumWeights(AllFindings[..1]) == 3 by { assert AllFindings[..1][..0] == AllFindings[..0]; }
    assert SumWeights(AllFindings[..2]) == 5 by { assert AllFindings[..2][..1] == AllFindings[..1]; }
    assert SumWeights(AllFindings[..3]) == 7 by { assert AllFindings[..3][..2] == AllFindings[..2]; }
    assert SumWeights(AllFindings[..4]) == 9 by { assert AllFindings[..4][..3] == AllFindings[..3]; }
    assert SumWeights(AllFindings[..5]) == 10 by { assert AllFindings[..5][..4] == AllFindings[..4]; }
    assert SumWeights(AllFindings[..6]) == 11 by { assert AllFindings[..6][..5] == AllFindings[..5]; }
    assert AllFindings[..7] == AllFindings;
  }

  /** Distinct findings have distinct keys, and `FindingOf` recovers a finding from its key. */
  lemma KeyRoundTrip(f: Finding, g: Finding)
    ensures FindingOf(Key(f)) == Some(f)
    ensures Key(f) == Key(g) ==> f == g
  {
  }
}

=== FILE: classification.dfy ===
/**
  The two pure classifiers of a score: the 3-month VTE risk label, chosen by
  ordered range checks, and the recommended intervention, chosen by the single
  threshold `score < 2` (which also picks the colour of the recommendation box).
 */
module Classification {
  import opened Catalog

  /** The fallback label for a score no range check accepts. */
  const NoRisk: string := "-"

  /** The labels of the risk table, from lowest to highest risk. */
  const RiskLabels: seq<string> := ["0.4%", "0.6%", "1.0%", "1.7%", "2.9%", "7.2%", ">7.2%"]

  /** The 3-month VTE risk label of a score: the first range check that accepts it wins. */
  function VteRisk(score: int): (risk: string)
    ensures risk == NoRisk <==> score < 0
    ensures risk != NoRisk ==> risk in RiskLabels
  {
    if score == 0 then "0.4%"
    else if score == 1 then "0.6%"
    else if score == 2 then "1.0%"
    else if score == 3 then "1.7%"
    else if score == 4 then "2.9%"
    else if score >= 5 && score <= 10 then "7.2%"
    else if score > 10 then ">7.2%"
    else NoRisk
  }

  /** One row of the published risk table: scores from `lo` up to `hi`, or without an
      upper end when `hi` is `None`. */
  datatype Band = Band(lo: int, hi: Option<int>, risk: string)
  {
    predicate Contains(score: int)
    {
      lo <= score && (hi.None? || score <= hi.value)
    }
  }

  /** The risk table as data: consecutive score ranges covering every score from 0 up. */
  const RiskTable: seq<Band> := [
    Band(0, Some(0), "0.4%"),
    Band(1, Some(1), "0.6%"),
    Band(2, Some(2), "1.0%"),
    Band(3, Some(3), "1.7%"),
    Band(4, Some(4), "2.9%"),
    Band(5, Some(10), "7.2%"),
    Band(11, None, ">7.2%")
  ]

  /** The label of the first row of `table` that contains `score`, or the fallback. */
  function LookupBand(table: seq<Band>, score: int): string
  {
    if |table| == 0 then NoRisk
    else if table[0].Contains(score) then table[0].risk
    else LookupBand(table[1..], score)
  }

  /** The table's rows are contiguous, start at 0, end unbounded, and carry the labels
      in order of increasing risk; so every non-negative score lies in exactly one row. */
  lemma RiskTableWellFormed()
    ensures |RiskTable| == |RiskLabels|
    ensures RiskTable[0].lo == 0
    ensures forall i :: 0 <= i < |RiskTable| ==> RiskTable[i].risk == RiskLabels[i]
    ensures forall i :: 0 <= i < |RiskTable| - 1 ==>
              RiskTable[i].hi == Some(RiskTable[i + 1].lo - 1) && RiskTable[i].lo <= RiskTable[i + 1].lo - 1
    ensures RiskTable[|RiskTable| - 1].hi.None?
  {
  }

  /** The chain of range checks in `VteRisk` agrees with a lookup in the risk table,
      for every integer score. */
  lemma RiskMatchesTable(score: int)
    ensures VteRisk(score) == LookupBand(RiskTable, score)
  {
    var t := RiskTable;
    var l6 := if score >= 11 then ">7.2%" else NoRisk;
    assert LookupBand(t[6..], score) == l6 by { assert t[6..][1..] == []; }
    var l5 := if 5 <= score <= 10 then "7.2%" else l6;
    assert LookupBand(t[5..], score) == l5 by { assert t[5..][1..] == t[6..]; }
    var l4 := if score == 4 then "2.9%" else l5;
    assert LookupBand(t[4..], score) == l4 by { assert t[4..][1..] == t[5..]; }
    var l3 := if score == 3 then "1.7%" else l4;
    assert LookupBand(t[3..], score) == l3 by { assert t[3..][1..] == t[4..]; }
    var l2 := if score == 2 then "1.0%" else l3;
    assert LookupBand(t[2..], score) == l2 by { assert t[2..][1..] == t[3..]; }
    var l1 := if score == 1 then "0.6%" else l2;
    assert LookupBand(t[1..], score) == l1 by { assert t[1..][1..] == t[2..]; }
  }

  /** The position of a label in the table, with the fallback below every real label. */
  function Severity(risk: string): (rank: int)
    ensures rank == -1 <==> risk !in RiskLabels
    ensures rank >= 0 ==> rank < |RiskLabels| && RiskLabels[rank] == risk
  {
    if risk == "0.4%" then 0
    else if risk == "0.6%" then 1
    else if risk == "1.0%" then 2
    else if risk == "1.7%" then 3
    else if risk == "2.9%" then 4
    else if risk == "7.2%" then 5
    else if risk == ">7.2%" then 6
    else -1
  }

  /** A higher score never yields a lower risk label. */
  lemma RiskMonotone(a: int, b: int)
    requires a <= b
    ensures Severity(VteRisk(a)) <= Severity(VteRisk(b))
  {
  }

  /** The two texts the recommendation box can show. */
  const LowRiskAdvice: string :=
    "Pharmacologic thromboprophylaxis is not warranted. Instead, early ambulation with or without mechanical prophylaxis may be appropriate."
  const HighRiskAdvice: string :=
    "Start appropriate pharmacologic (e.g., low molecular weight heparin) or mechanical (e.g., compression stockings, intermittent pneumatic compression) prophylaxis."

  /** The styling of the recommendation box: green border and background, or red. */
  datatype Tone = Green | Red

  /** What the recommendation box shows: its text and its styling. */
  datatype Advice = Advice(text: string, tone: Tone)

  /** The recommendation for a score. The text and the styling are chosen by two
      separate tests of the same threshold, so they always agree: scores below 2 get
      the "not warranted" text in green, every other score the prophylaxis text in red. */
  function Recommendation(score: int): (r: Advice)
    ensures r.text == LowRiskAdvice || r.text == HighRiskAdvice
    ensures r.text == LowRiskAdvice <==> score < 2
    ensures r.tone == Green <==> score < 2
    ensures r.tone == Green <==> r.text == LowRiskAdvice
  {
    Advice(if score < 2 then LowRiskAdvice else HighRiskAdvice,
           if score < 2 then Green else Red)
  }

  /** Once a score calls for prophylaxis, every higher score does too. */
  lemma RecommendationMonotone(a: int, b: int)
    requires a <= b
    ensures Recommendation(a).text == HighRiskAdvice ==> Recommendation(b).text == HighRiskAdvice
  {
  }

  /** The coarse recommendation and the fine risk table agree: the "not warranted" text
      is shown exactly when the risk label is "0.4%" or "0.6%", or the fallback "-". */
  lemma RecommendationMatchesRisk(score: int)
    ensures Recommendation(score).text == LowRiskAdvice <==>
            VteRisk(score) == "0.4%" || VteRisk(score) == "0.6%" || VteRisk(score) == NoRisk
  {
  }
}

=== FILE: scoring.dfy ===
/**
  The findings record of the typed application and the score derived from it:
  the sum of the weights of the findings that are present.
 */
module Scoring {
  import opened Catalog

  /** The findings record: one boolean per finding, stored at the finding's position
      in `AllFindings` (which is the order in which the initial record literal creates
      its properties, kept by every spread copy). */
  type Findings = s: seq<bool> | |s| == |AllFindings|
    witness [false, false, false, false, false, false, false]

  /** Whether finding `f` is marked present. */
  function Present(s: Findings, f: Finding): bool
  {
    s[Index(f)]
  }

  /** The record with the entry for `f` replaced by `b`. */
  function With(s: Findings, f: Finding, b: bool): (r: Findings)
    ensures Present(r, f) == b
    ensures forall g :: g != f ==> Present(r, g) == Present(s, g)
  {
    IndexInjective(f);
    s[Index(f) := b]
  }

  /** The (finding, present) pairs of the record, in field order. */
  function Entries(s: Findings): (e: seq<(Finding, bool)>)
    ensures |e| == |AllFindings|
    ensures forall i :: 0 <= i < |e| ==> e[i] == (AllFindings[i], Present(s, AllFindings[i]))
  {
    IndexOfListed();
    seq(|AllFindings|, i requires 0 <= i < |AllFindings| => (AllFindings[i], s[i]))
  }

  /** The record the application starts from: every finding absent. */
  const InitialFindings: Findings := [false, false, false, false, false, false, false]

  /** Two records that agree on every finding are the same record. */
  lemma Extensionality(a: Findings, b: Findings)
    requires forall f :: Present(a, f) == Present(b, f)
    ensures a == b
  {
    IndexOfListed();
    forall i | 0 <= i < |a| ensures a[i] == b[i] {
      assert Present(a, AllFindings[i]) == Present(b, AllFindings[i]);
    }
  }

  /** Sum of the weights of those findings of `fs` that are present in `s`. */
  function SumPresent(fs: seq<Finding>, s: Findings): (r: nat)
    ensures r <= SumWeights(fs)
  {
    if |fs| == 0 then 0
    else
      var last := fs[|fs| - 1];
      SumPresent(fs[..|fs| - 1], s) + (if Present(s, last) then Weight(last) else 0)
  }

  /** The score of a findings record, which never exceeds the sum of all weights. */
  function Score(s: Findings): (r: nat)
    ensures r <= MaxScore
  {
    CatalogWeightTotal();
    SumPresent(AllFindings, s)
  }

  /** Flip exactly the entry for `f`; every other finding keeps its value. */
  function Toggle(s: Findings, f: Finding): (r: Findings)
    ensures Present(r, f) == !Present(s, f)
    ensures forall g :: g != f ==> Present(r, g) == Present(s, g)
  {
    With(s, f, !Present(s, f))
  }

  /** Toggling the same finding twice gives back the original record. */
  lemma ToggleInvolution(s: Findings, f: Finding)
    ensures Toggle(Toggle(s, f), f) == s
  {
  }

  /** Toggles of different findings commute. */
  lemma ToggleCommutes(s: Findings, f: Finding, g: Finding)
    ensures Toggle(Toggle(s, f), g) == Toggle(Toggle(s, g), f)
  {
  }

  /** `SumPresent` only looks at the findings listed in `fs`. */
  lemma {:induction false} SumPresentFrame(fs: seq<Finding>, a: Findings, b: Findings)
    requires forall i :: 0 <= i < |fs| ==> Present(a, fs[i]) == Present(b, fs[i])
    ensures SumPresent(fs, a) == SumPresent(fs, b)
  {
    if |fs| > 0 {
      SumPresentFrame(fs[..|fs| - 1], a, b);
    }
  }

  /** Over a list without repetitions, toggling `f` moves the sum by exactly the weight
      of `f` when `f` is listed, and leaves it alone otherwise. */
  lemma {:induction false} SumPresentToggle(fs: seq<Finding>, s: Findings, f: Finding)
    requires forall i, j :: 0 <= i < j < |fs| ==> fs[i] != fs[j]
    ensures f !in fs ==> SumPresent(fs, Toggle(s, f)) == SumPresent(fs, s)
    ensures f in fs && !Present(s, f) ==> SumPresent(fs, Toggle(s, f)) == SumPresent(fs, s) + Weight(f)
    ensures f in fs && Present(s, f) ==> SumPresent(fs, Toggle(s, f)) + Weight(f) == SumPresent(fs, s)
  {
    if |fs| > 0 {
      var t := Toggle(s, f);
      var init, last := fs[..|fs| - 1], fs[|fs| - 1];
      assert fs == init + [last];
      if last == f {
        assert f !in init;
        SumPresentFrame(init, t, s);
      } else {
        SumPresentToggle(init, s, f);
        assert Present(t, last) == Present(s, last);
        assert f in fs <==> f in init;
      }
    }
  }

  /** Toggling a finding changes the score by exactly that finding's weight:
      up when it becomes present, down when it becomes absent. */
  lemma ToggleScoreDelta(s: Findings, f: Finding)
    ensures !Present(s, f) ==> Score(Toggle(s, f)) == Score(s) + Weight(f)
    ensures Present(s, f) ==> Score(Toggle(s, f)) + Weight(f) == Score(s)
  {
    CatalogComplete(f);
    SumPresentToggle(AllFindings, s, f);
  }

  /** The sum is zero exactly when no listed finding is present. */
  lemma {:induction false} SumPresentZero(fs: seq<Finding>, s: Findings)
    ensures SumPresent(fs, s) == 0 <==> forall i :: 0 <= i < |fs| ==> !Present(s, fs[i])
  {
    if |fs| > 0 {
      var init := fs[..|fs| - 1];
      SumPresentZero(init, s);
      assert forall i :: 0 <= i < |init| ==> init[i] == fs[i];
    }
  }

  /** The sum reaches the total weight exactly when every listed finding is present. */
  lemma {:induction false} SumPresentFull(fs: seq<Finding>, s: Findings)
    ensures SumPresent(fs, s) == SumWeights(fs) <==> forall i :: 0 <= i < |fs| ==> Present(s, fs[i])
  {
    if |fs| > 0 {
      var init := fs[..|fs| - 1];
      SumPresentFull(init, s);
      assert forall i :: 0 <= i < |init| ==> init[i] == fs[i];
    }
  }

  /** The score is 0 exactly when no finding is present, and `MaxScore` exactly when all are. */
  lemma ScoreExtremes(s: Findings)
    ensures Score(s) == 0 <==> forall f :: !Present(s, f)
    ensures Score(s) == MaxScore <==> forall f :: Present(s, f)
  {
    CatalogWeightTotal();
    SumPresentZero(AllFindings, s);
    SumPresentFull(AllFindings, s);
    forall f ensures f in AllFindings { CatalogComplete(f); }
    assert (forall f :: !Present(s, f)) <==> forall i :: 0 <= i < |AllFindings| ==> !Present(s, AllFindings[i]);
    assert (forall f :: Present(s, f)) <==> forall i :: 0 <= i < |AllFindings| ==> Present(s, AllFindings[i]);
  }

  /** The starting record scores 0. */
  lemma InitialScore()
    ensures forall f :: !Present(InitialFindings, f)
    ensures Score(InitialFindings) == 0
  {
    ScoreExtremes(InitialFindings);
  }

  /** Over any list, a record with more findings present sums to at least as much. */
  lemma {:induction false} SumPresentMonotone(fs: seq<Finding>, a: Findings, b: Findings)
    requires forall f :: Present(a, f) ==> Present(b, f)
    ensures SumPresent(fs, a) <= SumPresent(fs, b)
  {
    if |fs| > 0 {
      SumPresentMonotone(fs[..|fs| - 1], a, b);
    }
  }

  /** Marking more findings present never lowers the score. */
  lemma ScoreMonotone(a: Findings, b: Findings)
    requires forall f :: Present(a, f) ==> Present(b, f)
    ensures Score(a) <= Score(b)
  {
    SumPresentMonotone(AllFindings, a, b);
  }
}

=== FILE: untyped_app.dfy ===
/**
  The untyped version of the application. Its findings record is a plain object
  keyed by strings: the key set is not fixed by a type, so a change event may name
  any string. An object is modelled by its own properties in insertion order;
  writing an existing key keeps its position, writing a new key appends it. (A
  JavaScript object lists array-index keys such as "0" before all others; the
  model does not, which changes the order of properties but never a score.)
 */
module UntypedApp {
  import opened Catalog
  import Scoring
  import App

  /** An object's own (key, value) properties, in insertion order. */
  type Props = seq<(string, bool)>

  /** No key occurs twice, as in any object. */
  predicate DistinctKeys(e: Props)
  {
    forall i, j :: 0 <= i < j < |e| ==> e[i].0 != e[j].0
  }

  /** The weight table as the untyped source spells it: string keys and point values. */
  const ScoreTable: seq<(string, nat)> := [
    ("previousVTE", 3),
    ("knownThrombophilia", 2),
    ("currentLowerLimbParalysis", 2),
    ("currentCancer", 2),
    ("immobilized7Days", 1),
    ("icuCcuStay", 1),
    ("ageOver60", 1)
  ]

  /** The value stored under `k` in a list of (key, value) pairs, or `None` for undefined.
      Keys are distinct in any object and in the weight table, so the first match is
      the only one. */
  function Lookup<V>(t: seq<(string, V)>, k: string): Option<V>
  {
    if |t| == 0 then None
    else if t[0].0 == k then Some(t[0].1)
    else Lookup(t[1..], k)
  }

  /** The string table lists the catalog's keys, in order, with the catalog's weights. */
  lemma ScoreTableMatchesCatalog()
    ensures |ScoreTable| == |AllFindings|
    ensures forall i :: 0 <= i < |ScoreTable| ==>
              ScoreTable[i] == (Key(AllFindings[i]), Weight(AllFindings[i]))
  {
  }

  /** Looking a key up in the string table gives the weight of the finding it names,
      and nothing for a key that names no finding. */
  lemma TableLookupByKey(k: string)
    ensures FindingOf(k).Some? ==> Lookup(ScoreTable, k) == Some(Weight(FindingOf(k).value))
    ensures FindingOf(k).None? ==> Lookup(ScoreTable, k) == None
  {
    var t: seq<(string, nat)> := ScoreTable;
    var l6: Option<nat> := if k == "ageOver60" then Some(1) else None;
    assert Lookup(t[6..], k) == l6 by { assert |t[6..][1..]| == 0; }
    var l5: Option<nat> := if k == "icuCcuStay" then Some(1) else l6;
    assert Lookup(t[5..], k) == l5 by { assert t[5..][1..] == t[6..]; }
    var l4: Option<nat> := if k == "immobilized7Days" then Some(1) else l5;
    assert Lookup(t[4..], k) == l4 by { assert t[4..][1..] == t[5..]; }
    var l3: Option<nat> := if k == "currentCancer" then Some(2) else l4;
    assert Lookup(t[3..], k) == l3 by { assert t[3..][1..] == t[4..]; }
    var l2: Option<nat> := if k == "currentLowerLimbParalysis" then Some(2) else l3;
    assert Lookup(t[2..], k) == l2 by { assert t[2..][1..] == t[3..]; }
    var l1: Option<nat> := if k == "knownThrombophilia" then Some(2) else l2;
    assert Lookup(t[1..], k) == l1 by { assert t[1..][1..] == t[2..]; }
  }

  /** The weight used for key `k` when summing: `FINDING_SCORES[k] || 0`. A key missing
      from the table reads as undefined, which is falsy, so it contributes 0. */
  function WeightOrZero(k: string): (w: nat)
    ensures FindingOf(k).Some? ==> w == Weight(FindingOf(k).value)
    ensures FindingOf(k).None? ==> w == 0
  {
    TableLookupByKey(k);
    match Lookup(ScoreTable, k)
    case None => 0
    case Some(v) => if v == 0 then 0 else v
  }

  /** `{ ...e, [k]: v }`: an existing property keeps its position and takes the new value;
      a new one is appended. Every other property is copied unchanged. */
  function Assign(e: Props, k: string, v: bool): (r: Props)
    ensures Lookup(r, k) == Some(v)
    ensures forall k' :: k' != k ==> Lookup(r, k') == Lookup(e, k')
    ensures Lookup(e, k).Some? ==> |r| == |e| && forall i :: 0 <= i < |e| ==> r[i].0 == e[i].0
    ensures Lookup(e, k).None? ==> r == e + [(k, v)]
  {
    if |e| == 0 then [(k, v)]
    else if e[0].0 == k then [(k, v)] + e[1..]
    else [e[0]] + Assign(e[1..], k, v)
  }

  /** `!e[k]`: an undefined property negates to true. */
  function Negated(o: Option<bool>): (b: bool)
    ensures b <==> o != Some(true)
  {
    match o
    case None => true
    case Some(b) => !b
  }

  /** The score of an object: the sum, over its present properties, of the table weight
      of the key, with 0 for keys the table does not list. */
  function ScoreEntries(e: Props): (r: nat)
    ensures r <= 3 * |e|
  {
    if |e| == 0 then 0
    else
      var (k, v) := e[|e| - 1];
      ScoreEntries(e[..|e| - 1]) + (if v then WeightOrZero(k) else 0)
  }

  /** `Object.keys(FINDING_SCORES).reduce((acc, key) => { acc[key] = false; return acc }, acc)`. */
  function MarkAbsent(keys: seq<string>, acc: Props): (r: Props)
    ensures forall k :: k in keys ==> Lookup(r, k) == Some(false)
    ensures forall k :: k !in keys ==> Lookup(r, k) == Lookup(acc, k)
  {
    if |keys| == 0 then acc
    else
      assert keys == [keys[0]] + keys[1..];
      MarkAbsent(keys[1..], Assign(acc, keys[0], false))
  }

  /** The keys of the weight table, in order. */
  function TableKeys(t: seq<(string, nat)>): (ks: seq<string>)
    ensures |ks| == |t|
    ensures forall i :: 0 <= i < |t| ==> ks[i] == t[i].0
  {
    if |t| == 0 then [] else [t[0].0] + TableKeys(t[1..])
  }

  /** The initial findings object: every key of the weight table, in order, set to false. */
  function InitialEntries(): Props
  {
    MarkAbsent(TableKeys(ScoreTable), [])
  }

  /** The properties `keys`, in order, each set to false. */
  function AllAbsent(keys: seq<string>): (e: Props)
    ensures |e| == |keys|
    ensures forall i :: 0 <= i < |keys| ==> e[i] == (keys[i], false)
  {
    if |keys| == 0 then [] else [(keys[0], false)] + AllAbsent(keys[1..])
  }

  /** Writing a property never duplicates a key. */
  lemma {:induction false} AssignKeepsDistinct(e: Props, k: string, v: bool)
    requires DistinctKeys(e)
    ensures DistinctKeys(Assign(e, k, v))
  {
    if |e| > 0 && e[0].0 != k {
      var tail := e[1..];
      AssignKeepsDistinct(tail, k, v);
      var rt := Assign(tail, k, v);
      forall j | 0 <= j < |rt| ensures rt[j].0 != e[0].0 {
        if Lookup(tail, k).Some? {
          assert rt[j].0 == tail[j].0;
        } else if j < |tail| {
          assert rt[j] == tail[j];
        }
      }
    }
  }

  /** Appending a property leaves the lookup of every other key unchanged. */
  lemma {:induction false} GetAppend(e: Props, k: string, v: bool, k': string)
    requires k' != k
    ensures Lookup(e + [(k, v)], k') == Lookup(e, k')
  {
    if |e| > 0 {
      assert (e + [(k, v)])[1..] == e[1..] + [(k, v)];
      GetAppend(e[1..], k, v, k');
    }
  }

  /** Concatenation is associative (stated apart so that the solver meets it in a small context). */
  lemma SeqAssoc<T>(a: seq<T>, b: seq<T>, c: seq<T>)
    ensures (a + b) + c == a + (b + c)
  {
  }

  /** Folding fresh keys into an object appends them in order with value false. */
  lemma {:induction false} MarkAbsentAppends(keys: seq<string>, acc: Props)
    requires forall i, j :: 0 <= i < j < |keys| ==> keys[i] != keys[j]
    requires forall i :: 0 <= i < |keys| ==> Lookup(acc, keys[i]).None?
    ensures MarkAbsent(keys, acc) == acc + AllAbsent(keys)
  {
    if |keys| > 0 {
      var k, rest := keys[0], keys[1..];
      var acc' := acc + [(k, false)];
      forall i | 0 <= i < |rest| ensures Lookup(acc', rest[i]).None? {
        assert rest[i] == keys[i + 1];
        GetAppend(acc, k, false, rest[i]);
      }
      MarkAbsentAppends(rest, acc');
      var tail := AllAbsent(rest);
      assert AllAbsent(keys) == [(k, false)] + tail;
      SeqAssoc(acc, [(k, false)], tail);
    }
  }

  /** The initial object has exactly the keys of the weight table, in order, all false. */
  lemma InitialEntriesShape()
    ensures |InitialEntries()| == |AllFindings|
    ensures forall i :: 0 <= i < |AllFindings| ==> InitialEntries()[i] == (Key(AllFindings[i]), false)
  {
    ScoreTableMatchesCatalog();
    var ks := TableKeys(ScoreTable);
    KeysDistinct();
    MarkAbsentAppends(ks, []);
  }

  /** The catalog's keys are pairwise distinct. */
  lemma KeysDistinct()
    ensures forall i, j :: 0 <= i < j < |AllFindings| ==> Key(AllFindings[i]) != Key(AllFindings[j])
  {
  }

  /** Component state: the findings object and the stored score. */
  datatype State = State(findings: Props, score: int)

  /** The state on first render. */
  function Initial(): State
  {
    State(InitialEntries(), 0)
  }

  /** One change event for key `name`: flip (or create) that property, then store the
      score recomputed from the whole object. */
  function Step(a: State, name: string): (r: State)
    ensures Lookup(r.findings, name) == Some(Negated(Lookup(a.findings, name)))
    ensures forall k :: k != name ==> Lookup(r.findings, k) == Lookup(a.findings, k)
    ensures r.score == ScoreEntries(r.findings)
  {
    var updated := Assign(a.findings, name, Negated(Lookup(a.findings, name)));
    State(updated, ScoreEntries(updated))
  }

  /** The object that mirrors the typed record `s`: the catalog keys in order, each with
      the value `s` gives its finding. */
  function Mirror(s: Scoring.Findings): (e: Props)
    ensures |e| == |AllFindings|
    ensures forall i :: 0 <= i < |e| ==> e[i] == (Key(AllFindings[i]), Scoring.Present(s, AllFindings[i]))
  {
    seq(|AllFindings|, i requires 0 <= i < |AllFindings| => (Key(AllFindings[i]), Scoring.Present(s, AllFindings[i])))
  }

  /** The object lists the catalog keys in order, with the values of the typed record `s`. */
  predicate Represents(e: Props, s: Scoring.Findings)
  {
    e == Mirror(s)
  }

  /** The untyped state that mirrors a typed state: the mirroring object and the same score. */
  function MirrorState(t: App.AppState): State
  {
    State(Mirror(t.findings), t.score)
  }

  /** The initial untyped state corresponds to the initial typed state. */
  lemma InitialCorresponds()
    ensures Represents(Initial().findings, App.Initial.findings)
    ensures Initial().score == App.Initial.score
  {
    InitialEntriesShape();
    App.InitialState();
  }

  /** Position by position: the first `n` properties of an object that mirrors the typed
      record sum to the present weights of the first `n` findings. */
  lemma {:induction false} ScorePrefix(e: Props, s: Scoring.Findings, n: nat)
    requires Represents(e, s)
    requires n <= |e|
    ensures ScoreEntries(e[..n]) == Scoring.SumPresent(AllFindings[..n], s)
  {
    if n > 0 {
      ScorePrefix(e, s, n - 1);
      assert e[..n][..n - 1] == e[..n - 1];
      assert AllFindings[..n][..n - 1] == AllFindings[..n - 1];
      var f := AllFindings[n - 1];
      KeyRoundTrip(f, f);
    }
  }

  /** Summing an object that mirrors the typed record gives the typed score. */
  lemma ScoreCorresponds(e: Props, s: Scoring.Findings)
    requires Represents(e, s)
    ensures ScoreEntries(e) == Scoring.Score(s)
  {
    ScorePrefix(e, s, |e|);
    assert e[..|e|] == e;
    assert AllFindings[..|e|] == AllFindings;
  }

  /** In an object with distinct keys, a lookup finds the value at the key's position. */
  lemma {:induction false} GetAt(e: Props, i: nat)
    requires DistinctKeys(e)
    requires i < |e|
    ensures Lookup(e, e[i].0) == Some(e[i].1)
  {
    if i > 0 {
      assert e[0].0 != e[i].0;
      GetAt(e[1..], i - 1);
    }
  }

  /** Writing an existing key of an object with distinct keys overwrites it in place. */
  lemma {:induction false} AssignAt(e: Props, i: nat, v: bool)
    requires DistinctKeys(e)
    requires i < |e|
    ensures Assign(e, e[i].0, v) == e[i := (e[i].0, v)]
  {
    if i > 0 {
      assert e[0].0 != e[i].0;
      AssignAt(e[1..], i - 1, v);
    }
  }

  /** A mirroring object has distinct keys. */
  lemma RepresentsDistinct(e: Props, s: Scoring.Findings)
    requires Represents(e, s)
    ensures DistinctKeys(e)
  {
  }

  /** Position by position: overwriting the value at the position of `f` in a mirroring
      object gives the mirror of the record with `f` set to that value. */
  lemma MirrorWithAt(s: Scoring.Findings, f: Finding, v: bool, j: nat)
    requires j < |AllFindings|
    ensures Mirror(s)[Index(f) := (Key(f), v)][j] == Mirror(Scoring.With(s, f, v))[j]
  {
    IndexOfListed();
  }

  /** Writing a catalog key of a mirroring object gives the mirror of the record with
      that finding set to the same value. */
  lemma AssignMirror(s: Scoring.Findings, f: Finding, v: bool)
    ensures Assign(Mirror(s), Key(f), v) == Mirror(Scoring.With(s, f, v))
  {
    var e, i := Mirror(s), Index(f);
    RepresentsDistinct(e, s);
    AssignAt(e, i, v);
    var r, m := e[i := (Key(f), v)], Mirror(Scoring.With(s, f, v));
    forall j | 0 <= j < |r|
      ensures r[j] == m[j]
    {
      MirrorWithAt(s, f, v, j);
    }
  }

  /** A change event for a catalog key does to the object what the typed handler does to
      the record, and stores the same score. */
  lemma StepCorresponds(a: State, t: App.AppState, f: Finding)
    requires Represents(a.findings, t.findings)
    ensures Represents(Step(a, Key(f)).findings, App.Step(t, f).findings)
    ensures Step(a, Key(f)).score == App.Step(t, f).score
  {
    var s := t.findings;
    RepresentsDistinct(a.findings, s);
    GetAt(a.findings, Index(f));
    AssignMirror(s, f, !Scoring.Present(s, f));
    var r := Step(a, Key(f)).findings;
    assert r == Mirror(Scoring.Toggle(s, f));
    ScoreCorresponds(r, Scoring.Toggle(s, f));
  }

  /** The state after handling the change events `names`, in order, from the initial state. */
  function Replay(names: seq<string>): State
  {
    if |names| == 0 then Initial()
    else Step(Replay(names[..|names| - 1]), names[|names| - 1])
  }

  /** The keys of a sequence of findings. */
  function Keys(fs: seq<Finding>): (ks: seq<string>)
    ensures |ks| == |fs|
    ensures forall i :: 0 <= i < |fs| ==> ks[i] == Key(fs[i])
  {
    seq(|fs|, i requires 0 <= i < |fs| => Key(fs[i]))
  }

  /** For change events that name catalog keys, the untyped and the typed application
      go through corresponding states and always store the same score. */
  lemma {:induction false} ReplayCorresponds(names: seq<Finding>)
    ensures Replay(Keys(names)) == MirrorState(App.Replay(names))
  {
    if |names| == 0 {
      InitialCorresponds();
    } else {
      var init, last := names[..|names| - 1], names[|names| - 1];
      ReplayCorresponds(init);
      ReplayKeysLast(names);
      var a, t := Replay(Keys(init)), App.Replay(init);
      StepCorresponds(a, t, last);
      assert Step(a, Key(last)) == MirrorState(App.Step(t, last));
    }
  }

  /** Replaying the keys of a non-empty sequence of findings is one more change event
      after replaying the keys of all but the last. */
  lemma ReplayKeysLast(names: seq<Finding>)
    requires |names| > 0
    ensures Replay(Keys(names)) == Step(Replay(Keys(names[..|names| - 1])), Key(names[|names| - 1]))
  {
    assert Keys(names)[..|names| - 1] == Keys(names[..|names| - 1]);
  }

  /** For change events that name catalog keys, the stored score of the untyped
      application stays within 0..12. */
  lemma ReplayBounded(names: seq<Finding>)
    ensures 0 <= Replay(Keys(names)).score <= MaxScore
  {
    ReplayCorresponds(names);
  }

  /** Mirroring is one-to-one: two mirroring objects are equal exactly when the typed
      records they mirror are. */
  lemma RepresentsUnique(e: Props, e': Props, s: Scoring.Findings, s': Scoring.Findings)
    requires Represents(e, s) && Represents(e', s')
    ensures e == e' <==> s == s'
  {
    if e == e' {
      forall f ensures Scoring.Present(s, f) == Scoring.Present(s', f) {
        assert e[Index(f)] == e'[Index(f)];
        IndexOfListed();
      }
      Scoring.Extensionality(s, s');
    }
  }

  /** For a catalog key, two change events in a row restore both the object and the
      stored score, provided the stored score agreed with the object. */
  lemma StepInvolution(a: State, s: Scoring.Findings, f: Finding)
    requires Represents(a.findings, s)
    requires a.score == ScoreEntries(a.findings)
    ensures Step(Step(a, Key(f)), Key(f)) == a
  {
    var t := App.AppState(s, a.score);
    ScoreCorresponds(a.findings, s);
    StepCorresponds(a, t, f);
    StepCorresponds(Step(a, Key(f)), App.Step(t, f), f);
    App.StepInvolution(t, f);
    RepresentsUnique(Step(Step(a, Key(f)), Key(f)).findings, a.findings, s, s);
  }

  /** A present property whose key the table does not list adds nothing to the score. */
  lemma UnknownKeyScore(e: Props, k: string, v: bool)
    requires FindingOf(k).None?
    ensures ScoreEntries(e + [(k, v)]) == ScoreEntries(e)
  {
  }

  /** A change event for a key the table does not list appends that key as present and
      leaves the score alone; a second one sets it back to false but does not remove it,
      so the object does not return to its earlier value, while the score does. */
  lemma UnknownKeyStep(a: State, k: string)
    requires DistinctKeys(a.findings)
    requires FindingOf(k).None?
    requires Lookup(a.findings, k).None?
    ensures Step(a, k).findings == a.findings + [(k, true)]
    ensures Step(a, k).score == ScoreEntries(a.findings)
    ensures Step(Step(a, k), k).findings == a.findings + [(k, false)]
    ensures Step(Step(a, k), k).findings != a.findings
    ensures Step(Step(a, k), k).score == ScoreEntries(a.findings)
  {
    UnknownKeyOnce(a, k, true);
    UnknownKeyOnce(a, k, false);
    var e1 := a.findings + [(k, true)];
    AssignKeepsDistinct(a.findings, k, true);
    assert e1[|a.findings|].0 == k;
    AssignAt(e1, |a.findings|, false);
    assert e1[|a.findings| := (k, false)] == a.findings + [(k, false)];
  }

  /** Writing a key the table does not list into an object that lacks it appends the
      property and leaves the score alone. */
  lemma UnknownKeyOnce(a: State, k: string, v: bool)
    requires DistinctKeys(a.findings)
    requires FindingOf(k).None?
    requires Lookup(a.findings, k).None?
    ensures Assign(a.findings, k, v) == a.findings + [(k, v)]
    ensures ScoreEntries(a.findings + [(k, v)]) == ScoreEntries(a.findings)
  {
    UnknownKeyScore(a.findings, k, v);
  }
}
